=== FILE: README.md ===
# To-do list model

A Dafny model of the list state behind the desktop to-do widget in
`mytodo.py`, with the Tk widgets taken away. `TodoApp` keeps three parallel
lists, one entry per row:

- `todos`: the items as loaded, each a completion flag and a content;
- `checkVars`: the check-box flags;
- `labels`: the displayed row labels, each a text and a style.

It also keeps the storage file `todos.csv` and the window geometry. The model
covers the following, each proved against its own specification:

- loading, including the header bootstrap and `csv.DictReader`'s field lookup;
- building the rows;
- the restyle on a check-box click;
- committing an inline edit;
- saving;
- adding an item;
- deleting the checked items;
- the window-height rule.

The project has four modules, one file each:

- `TodoStorage` (`todo_storage.dfy`): the file as a sequence of records; the
  flag codec `str(b).lower()` and `cell.lower() == "true"`; how
  `csv.DictReader` maps a record through the header (duplicate names, short
  rows filled with `None`, a missing name raising `KeyError`); and the
  functions that say what loading reads and what saving writes.
- `TodoPresentation` (`todo_presentation.dfy`): the row style chosen from a
  flag, `str.strip` and the strip-then-keep rule for an edit, and the height
  clamp.
- `TodoSelection` (`todo_selection.dfy`): the ascending list of checked
  indices, filtering a list by its flags (`Keep`), and the proof that
  deleting the checked indices one by one, from the highest down, is that
  filter.
- `TodoApplication` (`todo_app.dfy`): the class `TodoApp`, whose methods
  update its sequence fields the way the Python methods update the
  attributes, with loop invariants for the loops of `load_data`,
  `create_todo_items`, `save_data` and `delete_selected`.

As in the code, toggling and editing change `checkVars` and `labels` only.
`todos` is left stale, and saving reads the flags and the label texts, not
`todos`.

Four details of loading follow `load_data` and the csv module closely:

- A record that raises does not undo the load. `load_data` first empties
  `todos`, keeps the items read before the failing record, and skips
  rebuilding the rows (`ReadRecords`, `Load`, `ReadRowsStopsAtError`).
- A record shorter than the header does not raise as long as its
  `completed` column is present: `csv.DictReader` fills the missing columns
  with `None`, and the missing `content` becomes `None` (`Field`,
  `ReadTodo`, `ReadShortRecord`). When `completed` itself is missing,
  `.lower()` on `None` raises.
- The reader sees the texts after newline translation. `save_data` opens the
  file with `newline=""`, so a carriage return in a label text is written as
  it is; `load_data` opens it without that argument, so every "\r\n" and
  every lone "\r" reads back as "\n" (`Normalize`, `Translated`, `Load`).
  A save and a load therefore give back each text up to this translation,
  and exactly when no text holds a carriage return (`SaveLoadRoundTrip`,
  `SaveLoadExact`, `ReloadRebuildsRows`).
- The reader raises on a field longer than `csv.field_size_limit()`, 131072
  characters by default. `save_data` writes a longer label text without
  complaint, and the next load then fails at that record. A save and a load
  succeed exactly when every translated text fits the limit
  (`FieldLimit`, `Oversized`, `ReadRowsFailsAt`, `SaveLoadRoundTrip`).

After a failed load at startup, `create_todo_items` has never run, so
`check_vars` and `labels` do not exist (`rowsBuilt` is false). "New item"
then appends to `todos` and raises before adding a row. "Delete selected"
raises before changing anything. "Save changes" truncates the file to the
header before it raises, so the records that failed to load are lost (see
"## Findings").

## Model

| member | source | states |
|---|---|---|
| TodoStorage.FlagText | mytodo.py:215 | a flag is written as exactly "true" or "false" |
| TodoStorage.LowerChar | mytodo.py:126 | an ASCII capital letter becomes its lower-case letter and every other character stays |
| TodoStorage.Lower | mytodo.py:126 | the lower-cased text has the same length and lowers each character in place |
| TodoStorage.BoolStr | mytodo.py:215 | `str(b)` starts with a capital letter and lower-cases to "true" or "false" |
| TodoStorage.FlagRoundTrip | mytodo.py:126 | parsing the written form of a flag gives the flag back |
| TodoStorage.ParseFlag | mytodo.py:126 | a cell reads as true exactly when it is four characters that lower-case to t, r, u, e |
| TodoStorage.LastColumn | mytodo.py:123 | the column found carries the header name and no later column below the bound does; none found means no column below the bound has that name |
| TodoStorage.Field | mytodo.py:123-127 | the lookup raises exactly when the header lacks the key; it gives `None` exactly when the record stops before some column of that name; a text value comes from the last column of that name, which the record reaches |
| TodoStorage.FieldLastDuplicate | mytodo.py:123-127 | when the record reaches the last column carrying a name, that column supplies the field |
| TodoStorage.ReadTodo | mytodo.py:125-128 | reading a record raises exactly when the header lacks either name or the record stops before a `completed` column; the content is `None` exactly when the record stops before a `content` column |
| TodoStorage.ReadRows | mytodo.py:122-128 | the loop yields at most one item per record |
| TodoStorage.PrependStep | mytodo.py:123-128 | one turn of the reading loop: a blank record is passed over; a record that raises, in the reader for a field that is too long or in the item expression, ends the load with the items read so far; any other appends its item |
| TodoStorage.ReadFile | mytodo.py:122-128 | an empty file loads without error and with no items; a header with a field that is too long fails with no items; otherwise there is at most one item per record after the header |
| TodoStorage.ReadStandardRecord | mytodo.py:124-128 | under the written header, a record of at least two fields gives its parsed flag and its content verbatim |
| TodoStorage.ReadFreshFile | mytodo.py:115-122 | a file holding only the header, read back in text mode, loads without error and gives no items |
| TodoStorage.ReadTwoColumnRows | mytodo.py:124-128 | two-field records within the field limit load without error, one item per record, in file order, flag parsed, content verbatim |
| TodoStorage.ReadByName | mytodo.py:123-128 | under any header that names each column once, in any order, a record reaching both columns reads as its parsed flag and its verbatim content |
| TodoStorage.ReadShortRecord | mytodo.py:123-128 | a record that stops after its `completed` column and before its `content` column reads without raising, with `None` content |
| TodoStorage.ReadRowsSkipsBlank | mytodo.py:123-124 | a blank record between others changes nothing that loading gives |
| TodoStorage.ReadRowsStopsAtError | mytodo.py:121-131 | the first record that raises, for a field that is too long or in the item expression, makes the load fail, keeping exactly the items read before it |
| TodoStorage.ReadRowsFailsAt | mytodo.py:121-131 | a record that raises anywhere in the file makes the load fail |
| TodoStorage.Normalize | mytodo.py:122 | the translated text holds no carriage return and is no longer than the text as written |
| TodoStorage.NormalizeNoReturn | mytodo.py:122 | a text without a carriage return reads back unchanged |
| TodoStorage.NormalizeLineEnds | mytodo.py:122 | "\r\n" and a lone "\r" both read back as "\n" |
| TodoStorage.NormalizeKeepsOther | mytodo.py:122 | any character other than a carriage return reads back as itself |
| TodoStorage.NormalizeLoneReturn | mytodo.py:122 | a carriage return not followed by a line feed reads back as a line feed, and the rest is translated after it |
| TodoStorage.NormalizeConcat | mytodo.py:122 | the translation of two pieces is the two translations, when the cut does not follow a carriage return |
| TodoStorage.NormalizeHead | mytodo.py:122 | the first character or line end of a text translates the same way whatever follows the text |
| TodoStorage.Translated | mytodo.py:122 | the reader sees the same records with the same number of fields, each field translated |
| TodoStorage.TranslatedPlain | mytodo.py:122 | records none of whose fields holds a carriage return read back unchanged |
| TodoStorage.NormalizeAll | mytodo.py:122 | one translated text per text, in order |
| TodoStorage.HeaderUntranslated | mytodo.py:117-122 | the written header reads back as written |
| TodoStorage.HeaderFits | mytodo.py:117-119 | the written header holds no field longer than the field limit |
| TodoStorage.SavedRecords | mytodo.py:211-215 | the saved file is the header followed by one record per row, in index order, holding the written flag and the label text |
| TodoStorage.SavedRecordsExt | mytodo.py:211-215 | a file holding the header and then the written flag and text of each row, record by record, is the saved file |
| TodoStorage.ItemsOf | mytodo.py:124-128 | one item per saved row with that row's flag and text |
| TodoStorage.TranslateSaved | mytodo.py:211-215 | reading a saved file in text mode sees the file that saving the translated texts would write |
| TodoStorage.SaveLoadUntranslated | mytodo.py:122-128 | reading the records save wrote, as written, succeeds exactly when every text fits the field limit, and then gives back the saved flags and texts, one item per row, in order |
| TodoStorage.SaveLoadRoundTrip | mytodo.py:208-218 | loading what save wrote succeeds exactly when every text fits the field limit after newline translation, and then gives back the saved flags and the translated texts, one item per row, in order |
| TodoStorage.SaveLoadExact | mytodo.py:208-218 | when no saved text holds a carriage return and every one fits the field limit, loading what save wrote gives back exactly the saved flags and texts |
| TodoStorage.SaveLoadFits | mytodo.py:122-128 | when every text fits the field limit, the records save wrote read back as every saved flag and text, in order |
| TodoStorage.SavedRows | mytodo.py:211-215 | the data records of a saved file are the two-field records of each row, within the field limit when every text fits, and loading reads them under the header |
| TodoPresentation.StyleFor | mytodo.py:156-158 | a checked row has the strike-through font and grey "#666666"; an unchecked row has the normal font and "black"; both use Microsoft YaHei at size 11 |
| TodoPresentation.StyleShowsFlag | mytodo.py:168-171 | two rows have the same style exactly when their flags are equal |
| TodoPresentation.IsSpace | mytodo.py:186 | the whitespace `strip()` removes includes space, tab, line feed and carriage return, and no ASCII letter or digit |
| TodoPresentation.LeadingSpace | mytodo.py:186 | the count covers whitespace only and stops at the first non-whitespace character |
| TodoPresentation.TrailingSpace | mytodo.py:186 | the count covers whitespace only and stops at the last non-whitespace character |
| TodoPresentation.Strip | mytodo.py:186 | the stripped text is no longer than the entry and neither starts nor ends with whitespace |
| TodoPresentation.StripBounds | mytodo.py:186 | the stripped text is a slice of the entry with only whitespace cut from either end |
| TodoPresentation.StripEmptyIffBlank | mytodo.py:186-187 | stripping leaves nothing exactly when the entry is all whitespace |
| TodoPresentation.StripIdempotent | mytodo.py:186 | stripping twice is the same as stripping once |
| TodoPresentation.CommittedText | mytodo.py:186-188 | an all-whitespace entry keeps the original text; any other entry gives its stripped text, which is non-empty and trimmed |
| TodoPresentation.CommitIdempotent | mytodo.py:185-191 | committing the same entry again changes the text no further |
| TodoPresentation.MaxHeight | mytodo.py:92 | the maximum height is the whole part of four fifths of the screen height |
| TodoPresentation.WindowHeight | mytodo.py:91-93 | the height is the minimum of content + 200 and the screen maximum, and equals one of them |
| TodoPresentation.CanvasFitsContent | mytodo.py:93-96 | the canvas gets exactly the content height when it fits; otherwise it gets less and the window has the maximum height |
| TodoPresentation.WindowHeightMonotone | mytodo.py:91-93 | more content or a taller screen never gives a lower window |
| TodoPresentation.AdjustedGeometry | mytodo.py:95 | only the height changes; the width stays 400 and the corner stays (1500, 20) |
| TodoSelection.Indices | mytodo.py:230 | the indices listed are strictly ascending and each holds the wanted flag |
| TodoSelection.IndicesComplete | mytodo.py:230 | every index holding the wanted flag is listed |
| TodoSelection.Keep | mytodo.py:230-235 | the survivors of deleting the checked positions are no more than the list |
| TodoSelection.KeepSubMultiset | mytodo.py:230-235 | the survivors are drawn from the list, with nothing added or repeated |
| TodoSelection.KeepConcat | mytodo.py:231-235 | filtering distributes over concatenation |
| TodoSelection.KeepNoneChecked | mytodo.py:231-235 | with no flag set nothing is removed |
| TodoSelection.KeepAt | mytodo.py:231-235 | the k-th survivor is the element at the k-th unchecked index: exactly the unchecked elements stay, in their original order |
| TodoSelection.KeepCount | mytodo.py:231-235 | the survivors and the checked indices together account for every row |
| TodoSelection.KeepFlagsCleared | mytodo.py:233 | after filtering the flags by themselves, no flag is set |
| TodoSelection.KeepAligned | mytodo.py:233-235 | lists of equal length stay of equal length after filtering by the same flags |
| TodoSelection.RemoveAt | mytodo.py:233-235 | `del` removes one element |
| TodoSelection.RemoveAtShifts | mytodo.py:233-235 | `del s[i]` keeps the elements below `i` in place and moves each one above it down by one |
| TodoSelection.GapUnchecked | mytodo.py:230-231 | no flag is set between two consecutive checked indices |
| TodoSelection.KeepSplit | mytodo.py:231-235 | filtering a clear run followed by a checked element keeps the run and drops the element |
| TodoSelection.DeleteAt | mytodo.py:233-235 | deleting a checked position above a clear run removes the original element and extends the filtered part down to the run's start |
| TodoSelection.DeleteStep | mytodo.py:231-235 | each deletion from the back hits the originally checked element and advances the loop state by one index |
| TodoSelection.PendingStart | mytodo.py:230-231 | before the first deletion the list is whole |
| TodoSelection.PendingEnd | mytodo.py:231-235 | after the last deletion the list is the filtered list |
| TodoSelection.AscendingRoom | mytodo.py:230-231 | each index still to delete leaves room for the ones above it, so it lies within the shrinking list |
| TodoSelection.DeletedFrom | mytodo.py:231-235 | each deletion removes one element |
| TodoSelection.DeletedFromIsPending | mytodo.py:231-235 | part-way through the loop, the list is untouched below the next index to delete and filtered above it |
| TodoSelection.DeletedFromStep | mytodo.py:231-235 | one turn of the descending loop keeps that shape |
| TodoSelection.DeletionHitsChecked | mytodo.py:231-235 | deleting in descending order never shifts a pending index: each deletion removes an element that was checked originally |
| TodoSelection.BatchDeleteIsKeep | mytodo.py:230-235 | the whole descending loop removes exactly the checked elements and keeps the rest in order |
| TodoApplication.RowLabel | mytodo.py:155-158 | the label has the style of its item's flag and the item's content as its text, or an empty text when the content is `None` |
| TodoApplication.Flags | mytodo.py:138-152 | one flag per item, in order, each the item's completion flag |
| TodoApplication.RowLabels | mytodo.py:138-162 | one label per item, in order, each the item's row label |
| TodoApplication.Texts | mytodo.py:214-215 | one text per label, in order, each the text the label shows |
| TodoApplication.RowsStyledByFlags | mytodo.py:148-158 | rows built from items have every label styled from its flag |
| TodoApplication.ReloadRebuildsRows | mytodo.py:113-162 | saving rows and loading the file again succeeds exactly when every translated text fits the field limit; it then rebuilds the same flags and styles, in order, with each text after newline translation, and the same labels exactly when no text holds a carriage return and every text fits |
| TodoApplication.ReloadedLabels | mytodo.py:155-162 | one label per saved label, in order, showing its translated text with its own style |
| TodoApplication.ReloadedRows | mytodo.py:113-162 | when the reload succeeds, the rebuilt flags are the saved flags and the rebuilt labels are the reloaded labels |
| TodoApplication.DeletionKeepsRowsValid | mytodo.py:230-235 | after filtering the three lists by the flags, they stay in lock-step and styled by their flags, and no flag is set |
| TodoApplication.TodoApp.constructor | mytodo.py:19-37 | the state before loading is the base 400x700 window at (1500, 20), with no rows built yet |
| TodoApplication.TodoApp.AdjustWindowHeight | mytodo.py:89-96 | sets the geometry to the clamped height at the fixed corner and the canvas to that height minus 200, and changes no list |
| TodoApplication.TodoApp.Load | mytodo.py:113-131 | creates a header-only file when none exists, and loads what the file reads as after newline translation; when every record reads, the rows are built and kept in lock-step; otherwise the rows are left as they were, still not built at startup |
| TodoApplication.TodoApp.ReadRecords | mytodo.py:115-128 | the loop gives exactly the items reading the file gives, and reports whether reading raised |
| TodoApplication.TodoApp.AppendRecord | mytodo.py:124-128 | one turn of the reading loop on a record that is not blank: it reports whether the record raises, and otherwise appends its item, changing nothing else |
| TodoApplication.TodoApp.CreateTodoItems | mytodo.py:133-140 | creates the two row lists, one flag and one label per item, in order, then the height rule |
| TodoApplication.TodoApp.CreateTodoRow | mytodo.py:142-162 | appends the item's flag and its label, and nothing else changes |
| TodoApplication.TodoApp.ToggleStyle | mytodo.py:164-171 | only row i's style changes, to the style of its flag; its text, the other rows and the flags stay |
| TodoApplication.TodoApp.Toggle | mytodo.py:149-171 | flips row i's flag and restyles the row; `todos` is untouched |
| TodoApplication.TodoApp.CommitEdit | mytodo.py:185-191 | row index takes the committed text, restyled from its unchanged flag; no other row and no flag changes |
| TodoApplication.TodoApp.Save | mytodo.py:208-218 | once the rows exist, the file becomes the header plus one (written flag, label text) record per row, in order; before that, the file is left with only the header; the lists are unchanged |
| TodoApplication.TodoApp.SaveIfLoaded | mytodo.py:208-218 | writes the file as save does once the rows exist, and leaves it untouched before that |
| TodoApplication.TodoApp.NewTodo | mytodo.py:220-226 | appends an unchecked "新事项" item; once the rows exist it also appends its flag and label at the end, then the height rule, keeping earlier rows and the lock-step; before that nothing else changes |
| TodoApplication.TodoApp.DeleteRow | mytodo.py:233-235 | removes index i from all three lists and changes nothing else |
| TodoApplication.TodoApp.DeleteChecked | mytodo.py:230-235 | the descending loop leaves each of the three lists filtered by the original flags |
| TodoApplication.TodoApp.DeleteSelected | mytodo.py:228-237 | once the rows exist, removes exactly the checked rows from all three lists, keeps the survivors in order and in lock-step, leaves no flag set, saves the result, then applies the height rule; before that nothing changes |
| TodoApplication.FirstRun | mytodo.py:19-24 | startup with no file creates a header-only file, loads without error, builds no rows, and loading again does the same |
| TodoApplication.ToggleTwice | mytodo.py:164-171 | clicking a check box twice restores the row's flag, text and style |
| TodoApplication.UnreadableFails | mytodo.py:122-131 | a file whose header names no `completed` column fails to load at its first data record, with no items |
| TodoApplication.FailedLoadThenSave | mytodo.py:208-218 | after a failed startup load, saving leaves the file with only the header, losing the record that was not read |
| TodoApplication.FailedLoadThenSaveIfLoaded | mytodo.py:208-218 | after a failed startup load, the corrected save keeps the file as it was |

## Left out

- Widgets: frames, packing, font objects, the scroll region, the mouse wheel and the context menu are toolkit side effects. A row is its entry in the three lists.
- The clock, the quote fetch over the network and its fallback text, and DPI scaling through foreign calls are not part of this model. They do not touch the list state.
- Real file I/O is left out. The file is a value, `None` while absent. An I/O failure on save and the dialogs on save and on load failure are not modelled.
- Byte-level CSV quoting and escaping are left out. The file is the sequence of records the csv writer consumes. The reader yields those records with newline translation applied to every field, and raises on a field longer than the default field limit; a limit changed with `csv.field_size_limit` is not modelled.
- TodoStorage.LowerChar: `str.lower` is modelled on ASCII letters only. This is exact for the comparison with "true", because no other character lowers into those four letters. It is not the full Unicode mapping.
- TodoPresentation.MaxHeight: `int(screen * 0.8)` is taken as `screen * 4 / 5`. The two agree for every screen height a display reports, but not for heights near 2^50 and beyond.
- The list's requested height and the screen height are parameters of the operations that apply the height rule. In the code they are read from the toolkit.
- The lookups `check_vars.index(var)` and `labels.index(label)` are modelled as the row index itself.
- An edit left open while rows are deleted is left out: the index captured when the edit opened would be stale. `CommitEdit` requires the index to be in range.
- `save_edit` is bound to both Return and FocusOut, so it can run twice for one edit. The first run is `CommitEdit` and destroys the entry. A second run then raises at `entry.get()` before it touches the label, so it changes nothing and is not modelled.
- After a failed load at startup the code never creates `check_vars` and `labels`; the model keeps them empty with `rowsBuilt` false. A check box or a label to click on does not exist then, which is why `Toggle` and `CommitEdit` need an index in range. The exception that "new item" and "delete selected" raise is reported by the toolkit and not modelled beyond the state it leaves.
- `__init__` is modelled as the constructor followed by `Load`.
- The canvas's `yview_moveto` in `new_todo` only scrolls the view and is not modelled.

## Findings

| source | as written | input that shows it | evidently intended | confidence | as-written member | corrected member |
|---|---|---|---|---|---|---|
| mytodo.py:208-215 | `save_data` opens the file for writing and writes the header before `zip(self.check_vars, self.labels)` raises when the rows were never built | a `todos.csv` holding `done,content` and `true,a`: the startup load fails, then "save changes" from the context menu | saving after a failed load leaves the unread file alone | medium, not executed | TodoApplication.FailedLoadThenSave | TodoApplication.TodoApp.SaveIfLoaded |

`TodoApp.Save` keeps the code as written, and `FailedLoadThenSave` shows the
loss. `TodoApp.SaveIfLoaded` is the corrected save, and
`FailedLoadThenSaveIfLoaded` proves it keeps the unread file. `DeleteSelected`
saves through `SaveIfLoaded`: it only reaches its save once the rows exist,
and there the two agree.

=== FILE: todo_app.dfy ===
/**
 * The to-do list state of `TodoApp` with the widgets taken away: the storage
 * file, the loaded items, and the three parallel lists the rows are kept in
 * (`todos`, the check-box flags `checkVars`, the row `labels`), plus the
 * window geometry the height rule sets. A row is identified by its index.
 */
module TodoApplication {
  import opened TodoStorage
  import opened TodoPresentation
  import opened TodoSelection

  /** The placeholder content of an item made by "new item". */
  const NewContent: string := "新事项"

  /** The label `_create_todo_row` makes for an item: styled from its flag,
      showing its content. tkinter leaves out an option whose value is
      `None`, so an item without content shows an empty label. */
  function RowLabel(t: Todo): (l: Label)
    ensures l.style == StyleFor(t.completed)
    ensures t.content.Some? ==> l.text == t.content.value
    ensures t.content.None? ==> l.text == ""
  {
    Label(if t.content.Some? then t.content.value else "", StyleFor(t.completed))
  }

  /** The flags of the rows built from `todos`. */
  function Flags(todos: seq<Todo>): (fs: seq<bool>)
    ensures |fs| == |todos|
    ensures forall i :: 0 <= i < |todos| ==> fs[i] == todos[i].completed
  {
    seq(|todos|, i requires 0 <= i < |todos| => todos[i].completed)
  }

  /** The labels of the rows built from `todos`. */
  function RowLabels(todos: seq<Todo>): (ls: seq<Label>)
    ensures |ls| == |todos|
    ensures forall i :: 0 <= i < |todos| ==> ls[i] == RowLabel(todos[i])
  {
    seq(|todos|, i requires 0 <= i < |todos| => RowLabel(todos[i]))
  }

  /** What `label.cget("text")` reads back from each row. */
  function Texts(labels: seq<Label>): (ts: seq<string>)
    ensures |ts| == |labels|
    ensures forall i :: 0 <= i < |labels| ==> ts[i] == labels[i].text
  {
    seq(|labels|, i requires 0 <= i < |labels| => labels[i].text)
  }

  /** Every label is styled from the flag beside it. */
  predicate StyledByFlags(flags: seq<bool>, labels: seq<Label>) {
    |flags| == |labels| && forall i {:trigger labels[i]} :: 0 <= i < |labels| ==> labels[i].style == StyleFor(flags[i])
  }

  /** Rows built from loaded items are styled from their flags. */
  lemma RowsStyledByFlags(todos: seq<Todo>)
    ensures StyledByFlags(Flags(todos), RowLabels(todos))
  {
  }

  /** What loading gives after the rows `flags` and `labels` were saved. */
  function Reload(flags: seq<bool>, labels: seq<Label>): Loaded
    requires |flags| == |labels|
  {
    ReadFile(Translated(SavedRecords(flags, Texts(labels))))
  }

  /** The labels a reload shows: each label's text after newline
      translation, with its style. */
  function ReloadedLabels(labels: seq<Label>): (ls: seq<Label>)
    ensures |ls| == |labels|
    ensures forall i :: 0 <= i < |labels| ==> ls[i] == Label(Normalize(labels[i].text), labels[i].style)
  {
    seq(|labels|, i requires 0 <= i < |labels| => Label(Normalize(labels[i].text), labels[i].style))
  }

  /** Saving the rows and loading the file again succeeds exactly when every
      translated text fits the reader's field limit. It then rebuilds the
      same rows: the same flags and styles, in order, and the same texts up
      to newline translation; texts without a carriage return come back
      exactly. */
  lemma ReloadRebuildsRows(flags: seq<bool>, labels: seq<Label>)
    requires StyledByFlags(flags, labels)
    ensures Reload(flags, labels).ok <==> FitFields(NormalizeAll(Texts(labels)))
    ensures FitFields(NormalizeAll(Texts(labels))) ==>
      Flags(Reload(flags, labels).todos) == flags &&
      RowLabels(Reload(flags, labels).todos) == ReloadedLabels(labels)
    ensures FitFields(Texts(labels)) && (forall i :: 0 <= i < |labels| ==> '\r' !in labels[i].text) ==>
      RowLabels(Reload(flags, labels).todos) == labels
  {
    var texts := Texts(labels);
    SaveLoadRoundTrip(flags, texts);
    if FitFields(NormalizeAll(texts)) {
      ReloadedRows(flags, labels);
    }
    if FitFields(texts) && forall i :: 0 <= i < |labels| ==> '\r' !in labels[i].text {
      assert FitFields(NormalizeAll(texts));
      ReloadedRows(flags, labels);
      forall i | 0 <= i < |labels|
        ensures ReloadedLabels(labels)[i] == labels[i]
      {
        NormalizeNoReturn(labels[i].text);
      }
    }
  }

  /** The rows rebuilt from a reload that succeeds. */
  lemma ReloadedRows(flags: seq<bool>, labels: seq<Label>)
    requires StyledByFlags(flags, labels) && FitFields(NormalizeAll(Texts(labels)))
    ensures Flags(Reload(flags, labels).todos) == flags
    ensures RowLabels(Reload(flags, labels).todos) == ReloadedLabels(labels)
  {
    var texts := Texts(labels);
    SaveLoadRoundTrip(flags, texts);
    var todos := ItemsOf(flags, NormalizeAll(texts));
    assert Reload(flags, labels).todos == todos;
    assert Flags(todos) == flags;
    var rows := RowLabels(todos);
    forall i | 0 <= i < |labels|
      ensures rows[i] == ReloadedLabels(labels)[i]
    {
      assert todos[i] == Todo(flags[i], Some(Normalize(texts[i])));
      assert labels[i].style == StyleFor(flags[i]);
    }
  }

  /** Deleting the checked rows from lists in lock-step leaves them in
      lock-step, still styled from their flags, and with no flag set. */
  lemma DeletionKeepsRowsValid(todos: seq<Todo>, flags: seq<bool>, labels: seq<Label>)
    requires |todos| == |flags| && StyledByFlags(flags, labels)
    ensures |Keep(todos, flags)| == |Keep(flags, flags)|
    ensures StyledByFlags(Keep(flags, flags), Keep(labels, flags))
    ensures forall k :: 0 <= k < |Keep(flags, flags)| ==> !Keep(flags, flags)[k]
  {
    KeepFlagsCleared(flags);
    KeepAt(flags, flags);
    KeepAt(labels, flags);
    KeepAt(todos, flags);
  }

  class TodoApp {
    /** The contents of `todos.csv`; `None` while the file does not exist. */
    var file: Option<seq<Record>>
    var todos: seq<Todo>
    var checkVars: seq<bool>
    var labels: seq<Label>
    var geometry: Geometry
    /** The list canvas's height; `None` until the height rule first sets it. */
    var canvasHeight: Option<int>
    /** Whether `create_todo_items` has run, so that `check_vars` and
        `labels` exist; until then an access to either raises
        `AttributeError`. */
    var rowsBuilt: bool

    /** Before the rows are first built, `check_vars` and `labels` do not
        exist and the model keeps them empty. Once built, the rows are in
        lock-step: one item, one flag and one label per row, and every label
        styled from its row's flag. */
    predicate Valid()
      reads this
    {
      if rowsBuilt then |todos| == |checkVars| && StyledByFlags(checkVars, labels)
      else checkVars == [] && labels == []
    }

    /** The state `setup_ui` leaves before anything is loaded: the window at
        its base height, docked at its corner, and no rows. */
    constructor (disk: Option<seq<Record>>)
      ensures Valid() && !rowsBuilt
      ensures file == disk && todos == [] && checkVars == [] && labels == []
      ensures geometry == Geometry(WindowWidth, BaseHeight, PosX, PosY) && canvasHeight == None
    {
      file := disk;
      todos, checkVars, labels := [], [], [];
      rowsBuilt := false;
      geometry := Geometry(WindowWidth, BaseHeight, PosX, PosY);
      canvasHeight := None;
    }

    /** `adjust_window_height`, given the list's requested height and the
        screen height the toolkit reports. */
    method AdjustWindowHeight(content: nat, screen: nat)
      modifies this
      ensures geometry == AdjustedGeometry(content, screen)
      ensures canvasHeight == Some(WindowHeight(content, screen) - HeaderSpace)
      ensures file == old(file) && todos == old(todos) && rowsBuilt == old(rowsBuilt)
      ensures checkVars == old(checkVars) && labels == old(labels)
    {
      var newHeight := WindowHeight(content, screen);
      geometry := Geometry(WindowWidth, newHeight, PosX, PosY);
      canvasHeight := Some(newHeight - HeaderSpace);
    }

    /** `load_data`: create the file with just the header if it is absent,
        then read its items in order, from the file opened in text mode. When every record reads, the rows are
        rebuilt from them; when one raises, the items read so far stay and
        the rows are not rebuilt. */
    method Load(content: nat, screen: nat) returns (ok: bool)
      modifies this
      ensures file == Some(if old(file).None? then [Header] else old(file).value)
      ensures ok == ReadFile(Translated(file.value)).ok && todos == ReadFile(Translated(file.value)).todos
      ensures old(file).None? ==> ok && todos == []
      ensures ok ==> rowsBuilt && Valid() && checkVars == Flags(todos) && labels == RowLabels(todos)
      ensures ok ==> geometry == AdjustedGeometry(content, screen) &&
                     canvasHeight == Some(WindowHeight(content, screen) - HeaderSpace)
      ensures !ok ==> checkVars == old(checkVars) && labels == old(labels) && rowsBuilt == old(rowsBuilt) &&
                      geometry == old(geometry) && canvasHeight == old(canvasHeight)
      ensures old(Valid()) && !old(rowsBuilt) ==> Valid()
    {
      if file.None? {
        file := Some([Header]);
      }
      if old(file).None? {
        ReadFreshFile();
      }
      ok := ReadRecords(Translated(file.value));
      if ok {
        CreateTodoItems(content, screen);
      }
    }

    /** The `for row in reader` loop of `load_data`: `todos` starts empty and
        gets one item per data record, until a record raises. */
    method ReadRecords(records: seq<Record>) returns (ok: bool)
      modifies this
      ensures ok == ReadFile(records).ok && todos == ReadFile(records).todos
      ensures file == old(file) && checkVars == old(checkVars) && labels == old(labels)
      ensures geometry == old(geometry) && canvasHeight == old(canvasHeight) && rowsBuilt == old(rowsBuilt)
    {
      todos := [];
      ok := true;
      if records == [] {
        return;
      }
      if Oversized(records[0]) {
        ok := false;
        return;
      }
      var header := records[0];
      var i := 1;
      while i < |records| && ok
        invariant 1 <= i <= |records|
        invariant file == old(file) && checkVars == old(checkVars) && labels == old(labels)
        invariant geometry == old(geometry) && canvasHeight == old(canvasHeight) && rowsBuilt == old(rowsBuilt)
        invariant ok ==> ReadFile(records) == Prepend(todos, ReadRows(header, records[i..]))
        invariant !ok ==> ReadFile(records) == Loaded(todos, false)
        decreases |records| - i
      {
        var row := records[i];
        assert records[i..][1..] == records[i + 1..];
        PrependStep(todos, header, records[i..]);
        if row != [] {
          ok := AppendRecord(header, row);
        }
        i := i + 1;
      }
      assert ok ==> records[i..] == [];
    }

    /** One turn of the reading loop on a data record that is not blank:
        the reader reads the record and the item built from it is appended,
        unless either raises. */
    method AppendRecord(header: Record, row: Record) returns (ok: bool)
      modifies this
      ensures ok == !RecordRaises(header, row)
      ensures ok ==> todos == old(todos) + [ReadTodo(header, row).value]
      ensures !ok ==> todos == old(todos)
      ensures file == old(file) && checkVars == old(checkVars) && labels == old(labels)
      ensures geometry == old(geometry) && canvasHeight == old(canvasHeight) && rowsBuilt == old(rowsBuilt)
    {
      if Oversized(row) {
        return false;
      }
      match ReadTodo(header, row)
      case None =>
        ok := false;
      case Some(t) =>
        todos := todos + [t];
        ok := true;
    }

    /** `create_todo_items`: one row per item, in order, then the height rule. */
    method CreateTodoItems(content: nat, screen: nat)
      modifies this
      ensures rowsBuilt && Valid()
      ensures checkVars == Flags(todos) && labels == RowLabels(todos)
      ensures file == old(file) && todos == old(todos)
      ensures geometry == AdjustedGeometry(content, screen)
      ensures canvasHeight == Some(WindowHeight(content, screen) - HeaderSpace)
    {
      checkVars, labels := [], [];
      rowsBuilt := true;
      var i := 0;
      while i < |todos|
        invariant 0 <= i <= |todos|
        invariant file == old(file) && todos == old(todos) && rowsBuilt
        invariant checkVars == Flags(todos[..i]) && labels == RowLabels(todos[..i])
      {
        assert todos[..i + 1] == todos[..i] + [todos[i]];
        CreateTodoRow(todos[i]);
        i := i + 1;
      }
      assert todos[..i] == todos;
      AdjustWindowHeight(content, screen);
    }

    /** `_create_todo_row`: append the item's flag and its label. */
    method CreateTodoRow(t: Todo)
      modifies this
      ensures checkVars == old(checkVars) + [t.completed]
      ensures labels == old(labels) + [RowLabel(t)]
      ensures file == old(file) && todos == old(todos) && rowsBuilt == old(rowsBuilt)
      ensures geometry == old(geometry) && canvasHeight == old(canvasHeight)
    {
      checkVars := checkVars + [t.completed];
      labels := labels + [RowLabel(t)];
    }

    /** `toggle_style`: restyle row `i` from its flag; its text, the other
        rows and the flags stay as they are. */
    method ToggleStyle(i: nat)
      requires i < |checkVars| && i < |labels|
      modifies this
      ensures file == old(file) && todos == old(todos) && checkVars == old(checkVars)
      ensures labels == old(labels)[i := Label(old(labels)[i].text, StyleFor(checkVars[i]))]
      ensures geometry == old(geometry) && canvasHeight == old(canvasHeight) && rowsBuilt == old(rowsBuilt)
    {
      labels := labels[i := labels[i].(style := StyleFor(checkVars[i]))];
    }

    /** A click on row `i`'s check box: the toolkit flips the flag, then the
        box's command restyles the row. `todos` is not touched. */
    method Toggle(i: nat)
      requires Valid() && i < |checkVars|
      modifies this
      ensures Valid()
      ensures checkVars == old(checkVars)[i := !old(checkVars)[i]]
      ensures labels == old(labels)[i := Label(old(labels)[i].text, StyleFor(!old(checkVars)[i]))]
      ensures file == old(file) && todos == old(todos)
      ensures geometry == old(geometry) && canvasHeight == old(canvasHeight) && rowsBuilt == old(rowsBuilt)
    {
      checkVars := checkVars[i := !checkVars[i]];
      ToggleStyle(i);
    }

    /** `save_edit` for the edit opened on row `index`: the label takes the
        stripped entry text unless nothing is left, and is restyled from the
        row's flag. The flag and `todos` are not touched. */
    method CommitEdit(index: nat, entry: string)
      requires Valid() && index < |labels|
      modifies this
      ensures Valid()
      ensures file == old(file) && todos == old(todos) && checkVars == old(checkVars)
      ensures labels == old(labels)[index := Label(CommittedText(old(labels)[index].text, entry),
                                                   StyleFor(checkVars[index]))]
      ensures geometry == old(geometry) && canvasHeight == old(canvasHeight) && rowsBuilt == old(rowsBuilt)
    {
      var newText := Strip(entry);
      if newText != [] {
        labels := labels[index := labels[index].(text := newText)];
      }
      ToggleStyle(index);
    }

    /** `save_data`: write the header, then one record per row, pairing each
        flag with the text its label shows. Before the rows exist, the file
        is already truncated to the header when `zip(self.check_vars, ...)`
        raises; the error is caught and the file stays that way. */
    method Save()
      requires |checkVars| == |labels|
      modifies this
      ensures todos == old(todos) && checkVars == old(checkVars) && labels == old(labels)
      ensures rowsBuilt ==> file == Some(SavedRecords(checkVars, Texts(labels)))
      ensures !rowsBuilt ==> file == Some([Header])
      ensures geometry == old(geometry) && canvasHeight == old(canvasHeight) && rowsBuilt == old(rowsBuilt)
    {
      if !rowsBuilt {
        file := Some([Header]);
        return;
      }
      var flags, texts := checkVars, Texts(labels);
      var records := [Header];
      var i := 0;
      while i < |flags|
        invariant 0 <= i <= |flags|
        invariant |records| == i + 1 && records[0] == Header
        invariant forall k :: 0 <= k < i ==> records[k + 1] == [FlagText(flags[k]), texts[k]]
      {
        records := records + [[FlagText(flags[i]), labels[i].text]];
        i := i + 1;
      }
      SavedRecordsExt(records, flags, texts);
      file := Some(records);
    }

    /** `save_data` as evidently intended: the rows are written only once
        they exist, so a file that failed to load is not overwritten. */
    method SaveIfLoaded()
      requires |checkVars| == |labels|
      modifies this
      ensures todos == old(todos) && checkVars == old(checkVars) && labels == old(labels)
      ensures rowsBuilt ==> file == Some(SavedRecords(checkVars, Texts(labels)))
      ensures !rowsBuilt ==> file == old(file)
      ensures geometry == old(geometry) && canvasHeight == old(canvasHeight) && rowsBuilt == old(rowsBuilt)
    {
      if rowsBuilt {
        Save();
      }
    }

    /** `new_todo`: append an unchecked placeholder item and its row at the
        end, then the height rule; earlier rows are unchanged. Before the
        rows exist, the item is appended to `todos` and then
        `_create_todo_row` raises at `self.check_vars`, so nothing else
        changes. */
    method NewTodo(content: nat, screen: nat)
      requires Valid()
      modifies this
      ensures Valid()
      ensures todos == old(todos) + [Todo(false, Some(NewContent))]
      ensures file == old(file) && rowsBuilt == old(rowsBuilt)
      ensures rowsBuilt ==> checkVars == old(checkVars) + [false] &&
                            labels == old(labels) + [Label(NewContent, StyleFor(false))] &&
                            geometry == AdjustedGeometry(content, screen) &&
                            canvasHeight == Some(WindowHeight(content, screen) - HeaderSpace)
      ensures !rowsBuilt ==> checkVars == old(checkVars) && labels == old(labels) &&
                             geometry == old(geometry) && canvasHeight == old(canvasHeight)
    {
      var t := Todo(false, Some(NewContent));
      todos := todos + [t];
      if !rowsBuilt {
        return;
      }
      CreateTodoRow(t);
      AdjustWindowHeight(content, screen);
    }

    /** The loop of `delete_selected`: collect the checked indices in
        ascending order, then delete each from all three lists, from the
        highest index down. */
    method DeleteChecked()
      requires |todos| == |checkVars| == |labels|
      modifies this
      ensures todos == Keep(old(todos), old(checkVars))
      ensures checkVars == Keep(old(checkVars), old(checkVars))
      ensures labels == Keep(old(labels), old(checkVars))
      ensures file == old(file) && geometry == old(geometry) && canvasHeight == old(canvasHeight)
      ensures rowsBuilt == old(rowsBuilt)
    {
      var toDelete := Indices(checkVars, true);
      ghost var todos0, flags0, labels0 := todos, checkVars, labels;
      assert Ascending(toDelete, |flags0|);
      var j := |toDelete|;
      while j > 0
        invariant 0 <= j <= |toDelete|
        invariant todos == DeletedFrom(todos0, toDelete, j)
        invariant checkVars == DeletedFrom(flags0, toDelete, j)
        invariant labels == DeletedFrom(labels0, toDelete, j)
        invariant file == old(file) && geometry == old(geometry) && canvasHeight == old(canvasHeight)
        invariant rowsBuilt == old(rowsBuilt)
      {
        var i := toDelete[j - 1];
        AscendingRoom(toDelete, |flags0|, j - 1);
        DeleteRow(i);
        j := j - 1;
      }
      BatchDeleteIsKeep(todos0, flags0);
      BatchDeleteIsKeep(flags0, flags0);
      BatchDeleteIsKeep(labels0, flags0);
    }

    /** One turn of the deletion loop: `del` row `i` from all three lists. */
    method DeleteRow(i: nat)
      requires i < |todos| && i < |checkVars| && i < |labels|
      modifies this
      ensures todos == RemoveAt(old(todos), i)
      ensures checkVars == RemoveAt(old(checkVars), i)
      ensures labels == RemoveAt(old(labels), i)
      ensures file == old(file) && geometry == old(geometry) && canvasHeight == old(canvasHeight)
      ensures rowsBuilt == old(rowsBuilt)
    {
      checkVars := RemoveAt(checkVars, i);
      labels := RemoveAt(labels, i);
      todos := RemoveAt(todos, i);
    }

    /** `delete_selected`: delete the checked rows, then save and apply the
        height rule. The rows stay in lock-step and no flag is left set.
        Before the rows exist, `enumerate(self.check_vars)` raises first and
        nothing changes. */
    method DeleteSelected(content: nat, screen: nat)
      requires Valid()
      modifies this
      ensures Valid() && rowsBuilt == old(rowsBuilt)
      ensures rowsBuilt ==> todos == Keep(old(todos), old(checkVars))
      ensures rowsBuilt ==> checkVars == Keep(old(checkVars), old(checkVars))
      ensures rowsBuilt ==> labels == Keep(old(labels), old(checkVars))
      ensures forall k :: 0 <= k < |checkVars| ==> !checkVars[k]
      ensures rowsBuilt ==> file == Some(SavedRecords(checkVars, Texts(labels)))
      ensures rowsBuilt ==> geometry == AdjustedGeometry(content, screen)
      ensures rowsBuilt ==> canvasHeight == Some(WindowHeight(content, screen) - HeaderSpace)
      ensures !rowsBuilt ==> file == old(file) && todos == old(todos) && checkVars == old(checkVars) &&
                             labels == old(labels) && geometry == old(geometry) && canvasHeight == old(canvasHeight)
    {
      if !rowsBuilt {
        return;
      }
      DeletionKeepsRowsValid(todos, checkVars, labels);
      DeleteChecked();
      SaveIfLoaded();
      AdjustWindowHeight(content, screen);
    }
  }

  /** Clicking a check box twice restores the row: flag, text and style. */
  method ToggleTwice(app: TodoApp, i: nat)
    requires app.Valid() && i < |app.checkVars|
    modifies app
    ensures app.Valid()
    ensures app.checkVars == old(app.checkVars) && app.labels == old(app.labels)
    ensures app.todos == old(app.todos) && app.file == old(app.file)
  {
    app.Toggle(i);
    app.Toggle(i);
  }

  /** Startup with no file: the file is created with only the header,
      nothing is loaded, and loading the file again loads nothing again. */
  method FirstRun(content: nat, screen: nat) returns (app: TodoApp, ok: bool, again: bool)
    ensures ok && again
    ensures app.file == Some([Header])
    ensures app.todos == [] && app.checkVars == [] && app.labels == [] && app.rowsBuilt
    ensures app.geometry == AdjustedGeometry(content, screen)
  {
    app := new TodoApp(None);
    ok := app.Load(content, screen);
    again := app.Load(content, screen);
  }

  /** A file that fails to load: its header names no `completed` column. */
  const UnreadableFile: seq<Record> := [["done", "content"], ["true", "a"]]

  /** Loading the unreadable file raises at its first data record. */
  lemma UnreadableFails()
    ensures ReadFile(Translated(UnreadableFile)) == Loaded([], false)
  {
    var f := UnreadableFile;
    assert forall i, j :: 0 <= i < |f| && 0 <= j < |f[i]| ==> '\r' !in f[i][j] by {
      assert '\r' !in f[0][0] && '\r' !in f[0][1] && '\r' !in f[1][0] && '\r' !in f[1][1];
    }
    TranslatedPlain(f);
    assert |f[0][0]| <= FieldLimit && |f[0][1]| <= FieldLimit;
    assert "completed" !in f[0];
    assert f[1..] == [f[1]] && f[1] != [];
  }

  /** Startup on a file that fails to load, then "save changes" with the
      code as written: the file is left with only the header, and the
      record that failed to load is lost. */
  method FailedLoadThenSave(content: nat, screen: nat) returns (app: TodoApp, ok: bool)
    ensures !ok && !app.rowsBuilt
    ensures app.file == Some([Header]) && app.file != Some(UnreadableFile)
  {
    app := new TodoApp(Some(UnreadableFile));
    UnreadableFails();
    ok := app.Load(content, screen);
    app.Save();
  }

  /** The same steps with the corrected save: the file that failed to load
      is kept as it was. */
  method FailedLoadThenSaveIfLoaded(content: nat, screen: nat) returns (app: TodoApp, ok: bool)
    ensures !ok && !app.rowsBuilt
    ensures app.file == Some(UnreadableFile)
  {
    app := new TodoApp(Some(UnreadableFile));
    UnreadableFails();
    ok := app.Load(content, screen);
    app.SaveIfLoaded();
  }
}

=== FILE: todo_presentation.dfy ===
/**
 * What a row looks like and how the window is sized: the label style chosen
 * from the completion flag, the strip-then-keep rule for committing an inline
 * edit, and the height clamp that keeps the window docked at its corner.
 */
module TodoPresentation {

  // ---------------------------------------------------------------------
  // Row style
  // ---------------------------------------------------------------------

  /** A Tk font tuple: family, size, and whether the `overstrike` option is set. */
  datatype Font = Font(family: string, size: nat, overstrike: bool)

  const NormalFont: Font := Font("Microsoft YaHei", 11, false)
  const StrikeFont: Font := Font("Microsoft YaHei", 11, true)

  /** The two label options `toggle_style` sets. */
  datatype Style = Style(font: Font, fg: string)

  /** The style of a row whose flag is `checked`. */
  function StyleFor(checked: bool): (st: Style)
    ensures st.font.overstrike == checked
    ensures st.fg == (if checked then "#666666" else "black")
    ensures st.font.family == "Microsoft YaHei" && st.font.size == 11
  {
    if checked then Style(StrikeFont, "#666666") else Style(NormalFont, "black")
  }

  /** The style shows the flag: two rows look alike exactly when their flags agree. */
  lemma StyleShowsFlag(a: bool, b: bool)
    ensures StyleFor(a) == StyleFor(b) <==> a == b
  {
    if StyleFor(a) == StyleFor(b) {
      assert StyleFor(a).font.overstrike == StyleFor(b).font.overstrike;
    }
  }

  /** A displayed row: its text and its style. */
  datatype Label = Label(text: string, style: Style)

  // ---------------------------------------------------------------------
  // Stripping an edit
  // ---------------------------------------------------------------------

  /** The characters Python's `str.strip()` removes (`str.isspace`). */
  predicate IsSpace(c: char)
    ensures c == ' ' || c == '\t' || c == '\n' || c == '\r' ==> IsSpace(c)
    ensures '0' <= c <= '9' || 'A' <= c <= 'Z' || 'a' <= c <= 'z' ==> !IsSpace(c)
  {
    c == ' ' || '\t' <= c <= '\r' || '\U{1C}' <= c <= '\U{1F}' ||
    c == '\U{85}' || c == '\U{A0}' || c == '\U{1680}' || '\U{2000}' <= c <= '\U{200A}' ||
    c == '\U{2028}' || c == '\U{2029}' || c == '\U{202F}' || c == '\U{205F}' || c == '\U{3000}'
  }

  /** Number of whitespace characters at the start of `s`. */
  function LeadingSpace(s: string): (n: nat)
    ensures n <= |s|
    ensures forall k :: 0 <= k < n ==> IsSpace(s[k])
    ensures n < |s| ==> !IsSpace(s[n])
  {
    if s == [] || !IsSpace(s[0]) then 0
    else
      var m := LeadingSpace(s[1..]);
      assert forall k :: 1 <= k < m + 1 ==> s[k] == s[1..][k - 1];
      m + 1
  }

  /** Number of whitespace characters at the end of `s`. */
  function TrailingSpace(s: string): (n: nat)
    ensures n <= |s|
    ensures forall k :: |s| - n <= k < |s| ==> IsSpace(s[k])
    ensures n < |s| ==> !IsSpace(s[|s| - n - 1])
  {
    if s == [] || !IsSpace(s[|s| - 1]) then 0
    else
      var m := TrailingSpace(s[..|s| - 1]);
      assert forall k :: 0 <= k < |s| - 1 ==> s[k] == s[..|s| - 1][k];
      m + 1
  }

  /** `s.strip()`: never longer than `s`, and what is left neither starts
      nor ends with whitespace. */
  function Strip(s: string): (r: string)
    ensures |r| <= |s|
    ensures r != [] ==> !IsSpace(r[0]) && !IsSpace(r[|r| - 1])
  {
    var t := s[LeadingSpace(s)..];
    var n := TrailingSpace(t);
    var r := t[..|t| - n];
    assert r != [] ==> r[0] == t[0] && r[|r| - 1] == t[|t| - n - 1];
    r
  }

  /** Stripping removes only whitespace, from both ends, and leaves no
      whitespace at either end: the result is the part of `s` between its
      first and last non-whitespace characters. */
  lemma StripBounds(s: string)
    ensures exists i, j ::
      (0 <= i <= j <= |s| && Strip(s) == s[i..j] &&
       (forall k :: 0 <= k < i ==> IsSpace(s[k])) &&
       (forall k :: j <= k < |s| ==> IsSpace(s[k])))
  {
    var i := LeadingSpace(s);
    var t := s[i..];
    var n := TrailingSpace(t);
    var j := |s| - n;
    assert Strip(s) == s[i..j];
    forall k | j <= k < |s|
      ensures IsSpace(s[k])
    {
      assert s[k] == t[k - i];
    }
  }

  /** Stripping leaves nothing exactly when the text is all whitespace. */
  lemma StripEmptyIffBlank(s: string)
    ensures Strip(s) == [] <==> forall k :: 0 <= k < |s| ==> IsSpace(s[k])
  {
    var i := LeadingSpace(s);
    var t := s[i..];
    if i < |s| {
      assert t[0] == s[i];
      assert !IsSpace(t[0]);
      assert TrailingSpace(t) < |t|;
    }
  }

  /** Stripping twice is stripping once. */
  lemma StripIdempotent(s: string)
    ensures Strip(Strip(s)) == Strip(s)
  {
    var r := Strip(s);
    StripBounds(s);
    if r != [] {
      assert LeadingSpace(r) == 0;
      assert TrailingSpace(r) == 0;
    }
  }

  /** The text a label shows after an edit of `entry` is committed: the
      stripped entry when something is left, otherwise the old text. */
  function CommittedText(original: string, entry: string): (r: string)
    ensures (forall k :: 0 <= k < |entry| ==> IsSpace(entry[k])) ==> r == original
    ensures !(forall k :: 0 <= k < |entry| ==> IsSpace(entry[k])) ==>
      r == Strip(entry) && r != [] && !IsSpace(r[0]) && !IsSpace(r[|r| - 1])
  {
    StripEmptyIffBlank(entry);
    StripBounds(entry);
    var t := Strip(entry);
    if t != [] then t else original
  }

  /** Committing the same edit twice changes the text no further. */
  lemma CommitIdempotent(original: string, entry: string)
    ensures CommittedText(CommittedText(original, entry), entry) == CommittedText(original, entry)
  {
    StripEmptyIffBlank(entry);
  }

  // ---------------------------------------------------------------------
  // Window height
  // ---------------------------------------------------------------------

  /** Fixed geometry: the window width and the docked corner. */
  const WindowWidth: nat := 400
  const PosX: int := 1500
  const PosY: int := 20
  const BaseHeight: nat := 700
  /** Height reserved above the list for the clock and the quote. */
  const HeaderSpace: nat := 200

  /** A Tk geometry `WxH+X+Y`. */
  datatype Geometry = Geometry(width: int, height: int, x: int, y: int)

  /** `int(screen * 0.8)`: the whole part of four fifths of the screen. The
      double nearest 0.8 lies just above it, so for a screen height below
      about 2^50 the product rounds to no less than `4 * screen / 5` and stays
      below the next integer. */
  function MaxHeight(screen: nat): (m: nat)
    ensures 5 * m <= 4 * screen < 5 * m + 5
  {
    screen * 4 / 5
  }

  /** The new window height: the list's requested height plus the reserved
      header space, but never more than the maximum for the screen. */
  function WindowHeight(content: nat, screen: nat): (h: int)
    ensures h <= content + HeaderSpace && h <= MaxHeight(screen)
    ensures h == content + HeaderSpace || h == MaxHeight(screen)
  {
    if content + HeaderSpace <= MaxHeight(screen) then content + HeaderSpace else MaxHeight(screen)
  }

  /** The list area gets the window height minus the header space: exactly
      the content's height when it fits, otherwise less, and the list scrolls. */
  lemma CanvasFitsContent(content: nat, screen: nat)
    ensures content + HeaderSpace <= MaxHeight(screen) ==> WindowHeight(content, screen) - HeaderSpace == content
    ensures content + HeaderSpace > MaxHeight(screen) ==>
      WindowHeight(content, screen) - HeaderSpace < content &&
      WindowHeight(content, screen) == MaxHeight(screen)
  {
  }

  /** More content never shrinks the window, and a larger screen never does either. */
  lemma WindowHeightMonotone(c1: nat, c2: nat, s1: nat, s2: nat)
    requires c1 <= c2 && s1 <= s2
    ensures WindowHeight(c1, s1) <= WindowHeight(c2, s2)
  {
    assert s1 * 4 / 5 <= s2 * 4 / 5;
  }

  /** The geometry `adjust_window_height` sets: only the height changes, the
      width and the docked corner stay fixed. */
  function AdjustedGeometry(content: nat, screen: nat): (g: Geometry)
    ensures g.width == WindowWidth && g.x == PosX && g.y == PosY
    ensures g.height == WindowHeight(content, screen)
  {
    Geometry(WindowWidth, WindowHeight(content, screen), PosX, PosY)
  }
}

=== FILE: todo_selection.dfy ===
/**
 * Batch deletion of the checked rows. The source collects the checked
 * indices in ascending order and deletes them from the back, so that
 * removing one never moves an index still to be removed. `Keep` is the
 * reference meaning of the whole batch: the rows whose flag is false, in
 * their original order; `Pending` describes the lists part-way through.
 */
module TodoSelection {

  /** The indices whose flag equals `want`, in ascending order:
      `[i for i, var in enumerate(check_vars) if var.get()]` for `want == true`. */
  function Indices(flags: seq<bool>, want: bool): (d: seq<nat>)
    ensures forall k :: 0 <= k < |d| ==> d[k] < |flags| && flags[d[k]] == want
    ensures forall k, l :: 0 <= k < l < |d| ==> d[k] < d[l]
  {
    if flags == [] then []
    else
      var n := |flags| - 1;
      var front := Indices(flags[..n], want);
      assert forall i :: 0 <= i < n ==> flags[..n][i] == flags[i];
      front + (if flags[n] == want then [n] else [])
  }

  /** No position is missed: every index whose flag equals `want` is listed. */
  lemma {:induction false} IndicesComplete(flags: seq<bool>, want: bool, i: nat)
    requires i < |flags| && flags[i] == want
    ensures i in Indices(flags, want)
    decreases |flags|
  {
    var n := |flags| - 1;
    if i < n {
      assert flags[..n][i] == flags[i];
      IndicesComplete(flags[..n], want, i);
    }
  }

  /** The elements of `xs` at the positions whose flag is false, in order. */
  function Keep<T>(xs: seq<T>, flags: seq<bool>): (r: seq<T>)
    requires |xs| == |flags|
    ensures |r| <= |xs|
    decreases |xs|
  {
    if xs == [] then []
    else
      var n := |xs| - 1;
      Keep(xs[..n], flags[..n]) + (if flags[n] then [] else [xs[n]])
  }

  /** The survivors are drawn from the list: nothing is added or repeated. */
  lemma {:induction false} KeepSubMultiset<T>(xs: seq<T>, flags: seq<bool>)
    requires |xs| == |flags|
    ensures multiset(Keep(xs, flags)) <= multiset(xs)
    decreases |xs|
  {
    if xs != [] {
      var n := |xs| - 1;
      assert xs == xs[..n] + [xs[n]];
      KeepSubMultiset(xs[..n], flags[..n]);
    }
  }

  /** `Keep` of a concatenation is the concatenation of `Keep`s. */
  lemma {:induction false} KeepConcat<T>(a: seq<T>, fa: seq<bool>, b: seq<T>, fb: seq<bool>)
    requires |a| == |fa| && |b| == |fb|
    ensures Keep(a + b, fa + fb) == Keep(a, fa) + Keep(b, fb)
    decreases |b|
  {
    if b == [] {
      assert a + b == a && fa + fb == fa;
    } else {
      var n := |b| - 1;
      assert (a + b)[..|a| + n] == a + b[..n];
      assert (fa + fb)[..|a| + n] == fa + fb[..n];
      KeepConcat(a, fa, b[..n], fb[..n]);
    }
  }

  /** With no flag set, nothing is removed. */
  lemma {:induction false} KeepNoneChecked<T>(xs: seq<T>, flags: seq<bool>)
    requires |xs| == |flags|
    requires forall i :: 0 <= i < |flags| ==> !flags[i]
    ensures Keep(xs, flags) == xs
    decreases |xs|
  {
    if xs != [] {
      var n := |xs| - 1;
      KeepNoneChecked(xs[..n], flags[..n]);
      assert xs[..n] + [xs[n]] == xs;
    }
  }

  /** The survivors are exactly the unchecked elements, in their original order:
      the k-th survivor is the element at the k-th unchecked index. */
  lemma {:induction false} KeepAt<T>(xs: seq<T>, flags: seq<bool>)
    requires |xs| == |flags|
    ensures |Keep(xs, flags)| == |Indices(flags, false)|
    ensures forall k :: 0 <= k < |Keep(xs, flags)| ==> Keep(xs, flags)[k] == xs[Indices(flags, false)[k]]
    decreases |xs|
  {
    if xs != [] {
      var n := |xs| - 1;
      KeepAt(xs[..n], flags[..n]);
      assert forall i :: 0 <= i < n ==> xs[..n][i] == xs[i];
    }
  }

  /** Every row is either deleted or survives: the counts add up. */
  lemma {:induction false} KeepCount<T>(xs: seq<T>, flags: seq<bool>)
    requires |xs| == |flags|
    ensures |Keep(xs, flags)| + |Indices(flags, true)| == |xs|
    decreases |xs|
  {
    if xs != [] {
      var n := |xs| - 1;
      KeepCount(xs[..n], flags[..n]);
    }
  }

  /** After the batch, no surviving flag is set. */
  lemma {:induction false} KeepFlagsCleared(flags: seq<bool>)
    ensures forall k :: 0 <= k < |Keep(flags, flags)| ==> !Keep(flags, flags)[k]
    decreases |flags|
  {
    if flags != [] {
      var n := |flags| - 1;
      KeepFlagsCleared(flags[..n]);
    }
  }

  /** Filtering parallel lists by the same flags keeps them parallel. */
  lemma KeepAligned<T, U>(xs: seq<T>, ys: seq<U>, flags: seq<bool>)
    requires |xs| == |flags| && |ys| == |flags|
    ensures |Keep(xs, flags)| == |Keep(ys, flags)|
  {
    KeepAt(xs, flags);
    KeepAt(ys, flags);
  }

  // ---------------------------------------------------------------------
  // Deleting from the back
  // ---------------------------------------------------------------------

  /** `del s[i]`. */
  function RemoveAt<T>(s: seq<T>, i: nat): (r: seq<T>)
    requires i < |s|
    ensures |r| == |s| - 1
  {
    s[..i] + s[i + 1..]
  }

  /** `del s[i]` keeps the elements below `i` in place and moves each one
      above it down by one. */
  lemma RemoveAtShifts<T>(s: seq<T>, i: nat)
    requires i < |s|
    ensures forall k :: 0 <= k < i ==> RemoveAt(s, i)[k] == s[k]
    ensures forall k :: i <= k < |s| - 1 ==> RemoveAt(s, i)[k] == s[k + 1]
  {
    var r := RemoveAt(s, i);
    forall k | i <= k < |s| - 1
      ensures r[k] == s[k + 1]
    {
      assert r[k] == s[i + 1..][k - i];
    }
  }

  /** The first position not yet touched once the indices `d[j..]` are deleted. */
  function Cut(d: seq<nat>, j: nat): nat
    requires j <= |d|
  {
    if j == 0 then 0 else d[j - 1] + 1
  }

  /** A list part-way through the batch: untouched below `c`, filtered from `c` on. */
  function Pending<T>(xs: seq<T>, flags: seq<bool>, c: nat): seq<T>
    requires |xs| == |flags| && c <= |xs|
  {
    xs[..c] + Keep(xs[c..], flags[c..])
  }

  /** Before any deletion the list is whole. */
  lemma PendingStart<T>(xs: seq<T>, flags: seq<bool>, d: seq<nat>)
    requires |xs| == |flags| && d == Indices(flags, true)
    ensures Cut(d, |d|) <= |xs|
    ensures Pending(xs, flags, Cut(d, |d|)) == xs
  {
    var c := Cut(d, |d|);
    forall i | c <= i < |flags|
      ensures !flags[i]
    {
      if flags[i] {
        IndicesComplete(flags, true, i);
        assert false;
      }
    }
    KeepNoneChecked(xs[c..], flags[c..]);
    assert xs[..c] + xs[c..] == xs;
  }

  /** After the last deletion the list is `Keep` of the original. */
  lemma PendingEnd<T>(xs: seq<T>, flags: seq<bool>)
    requires |xs| == |flags|
    ensures Pending(xs, flags, 0) == Keep(xs, flags)
  {
    assert xs[0..] == xs && flags[0..] == flags;
  }

  /** No flag is set strictly between two consecutive checked indices. */
  lemma GapUnchecked(flags: seq<bool>, j: nat)
    requires 0 < j <= |Indices(flags, true)|
    ensures Cut(Indices(flags, true), j - 1) <= Indices(flags, true)[j - 1]
    ensures forall i :: Cut(Indices(flags, true), j - 1) <= i < Indices(flags, true)[j - 1] ==> !flags[i]
  {
    var d := Indices(flags, true);
    forall i | Cut(d, j - 1) <= i < d[j - 1]
      ensures !flags[i]
    {
      if flags[i] {
        IndicesComplete(flags, true, i);
        assert false;
      }
    }
  }

  /** Filtering from `lo`, when the flags in `[lo, p)` are clear and the one at
      `p` is set: the clear run stays and the element at `p` goes. */
  lemma KeepSplit<T>(xs: seq<T>, flags: seq<bool>, lo: nat, p: nat)
    requires |xs| == |flags| && lo <= p < |xs|
    requires forall i :: lo <= i < p ==> !flags[i]
    requires flags[p]
    ensures Keep(xs[lo..], flags[lo..]) == xs[lo..p] + Keep(xs[p + 1..], flags[p + 1..])
  {
    KeepNoneChecked(xs[lo..p], flags[lo..p]);
    assert xs[lo..] == (xs[lo..p] + [xs[p]]) + xs[p + 1..];
    assert flags[lo..] == (flags[lo..p] + [flags[p]]) + flags[p + 1..];
    KeepConcat(xs[lo..p], flags[lo..p], [xs[p]], [flags[p]]);
    KeepConcat(xs[lo..p] + [xs[p]], flags[lo..p] + [flags[p]], xs[p + 1..], flags[p + 1..]);
    assert [xs[p]][..0] == [] && [flags[p]][..0] == [];
    assert Keep([xs[p]], [flags[p]]) == [];
  }

  /** Deleting position `p` from a list that is filtered from `p + 1` on,
      when the flags in `[lo, p)` are clear and the one at `p` is set: the
      element at `p` is still the original one, and the result is the list
      filtered from `lo` on. */
  lemma DeleteAt<T>(xs: seq<T>, flags: seq<bool>, lo: nat, p: nat)
    requires |xs| == |flags| && lo <= p < |xs|
    requires forall i :: lo <= i < p ==> !flags[i]
    requires flags[p]
    ensures p < |Pending(xs, flags, p + 1)|
    ensures Pending(xs, flags, p + 1)[p] == xs[p]
    ensures RemoveAt(Pending(xs, flags, p + 1), p) == Pending(xs, flags, lo)
  {
    KeepSplit(xs, flags, lo, p);
    var rest := Keep(xs[p + 1..], flags[p + 1..]);
    var cur := Pending(xs, flags, p + 1);
    assert cur == (xs[..p] + [xs[p]]) + rest by {
      assert xs[..p + 1] == xs[..p] + [xs[p]];
    }
    assert cur[..p] == xs[..p] && cur[p + 1..] == rest;
    assert Pending(xs, flags, lo) == xs[..lo] + (xs[lo..p] + rest);
    assert xs[..lo] + xs[lo..p] == xs[..p];
  }

  /** One deletion from the back, for `d` the checked indices: index `d[j-1]`
      still holds the element that was there originally, and removing it
      moves the list one step on. */
  lemma DeleteStep<T>(xs: seq<T>, flags: seq<bool>, d: seq<nat>, j: nat)
    requires |xs| == |flags| && d == Indices(flags, true)
    requires 0 < j <= |d|
    ensures Cut(d, j - 1) <= Cut(d, j) <= |xs|
    ensures d[j - 1] < |Pending(xs, flags, Cut(d, j))|
    ensures Pending(xs, flags, Cut(d, j))[d[j - 1]] == xs[d[j - 1]]
    ensures RemoveAt(Pending(xs, flags, Cut(d, j)), d[j - 1]) == Pending(xs, flags, Cut(d, j - 1))
  {
    GapUnchecked(flags, j);
    DeleteAt(xs, flags, Cut(d, j - 1), d[j - 1]);
  }

  // ---------------------------------------------------------------------
  // The loop of `delete_selected`
  // ---------------------------------------------------------------------

  /** `d` lists positions below `n` in strictly ascending order. */
  ghost predicate Ascending(d: seq<nat>, n: nat) {
    (forall k :: 0 <= k < |d| ==> d[k] < n) &&
    (forall k, l :: 0 <= k < l < |d| ==> d[k] < d[l])
  }

  /** In an ascending list below `n`, the entries from `j` on need `|d| - j`
      distinct positions, so `d[j]` leaves room for them. */
  lemma {:induction false} AscendingRoom(d: seq<nat>, n: nat, j: nat)
    requires Ascending(d, n) && j < |d|
    ensures d[j] + (|d| - j) <= n
    decreases |d| - j
  {
    if j + 1 < |d| {
      AscendingRoom(d, n, j + 1);
    }
  }

  /** What the reverse loop leaves once it has deleted the positions `d[j..]`
      from `xs`, the highest first. */
  ghost function DeletedFrom<T>(xs: seq<T>, d: seq<nat>, j: nat): (r: seq<T>)
    requires Ascending(d, |xs|) && j <= |d|
    ensures |r| == |xs| - (|d| - j)
    decreases |d| - j
  {
    if j == |d| then xs
    else
      AscendingRoom(d, |xs|, j);
      RemoveAt(DeletedFrom(xs, d, j + 1), d[j])
  }

  /** Part-way through the loop the list is untouched below the last index
      still to delete and filtered above it. */
  lemma {:induction false} DeletedFromIsPending<T>(xs: seq<T>, flags: seq<bool>, d: seq<nat>, j: nat)
    requires |xs| == |flags| && d == Indices(flags, true) && j <= |d|
    ensures Cut(d, j) <= |xs|
    ensures DeletedFrom(xs, d, j) == Pending(xs, flags, Cut(d, j))
    decreases |d| - j
  {
    if j == |d| {
      PendingStart(xs, flags, d);
    } else {
      DeletedFromIsPending(xs, flags, d, j + 1);
      DeletedFromStep(xs, flags, d, j);
    }
  }

  /** One turn of the loop keeps the list in the form `Pending` describes. */
  lemma DeletedFromStep<T>(xs: seq<T>, flags: seq<bool>, d: seq<nat>, j: nat)
    requires |xs| == |flags| && d == Indices(flags, true) && j < |d|
    requires Cut(d, j + 1) <= |xs| && DeletedFrom(xs, d, j + 1) == Pending(xs, flags, Cut(d, j + 1))
    ensures Cut(d, j) <= |xs|
    ensures DeletedFrom(xs, d, j) == Pending(xs, flags, Cut(d, j))
  {
    DeleteStep(xs, flags, d, j + 1);
  }

  /** Deleting in descending order never shifts an index still to be
      deleted: each step removes the element that was checked originally. */
  lemma DeletionHitsChecked<T>(xs: seq<T>, flags: seq<bool>, d: seq<nat>, j: nat)
    requires |xs| == |flags| && d == Indices(flags, true) && 0 < j <= |d|
    ensures d[j - 1] < |DeletedFrom(xs, d, j)|
    ensures DeletedFrom(xs, d, j)[d[j - 1]] == xs[d[j - 1]] && flags[d[j - 1]]
  {
    DeletedFromIsPending(xs, flags, d, j);
    DeleteStep(xs, flags, d, j);
  }

  /** The whole reverse loop removes exactly the checked elements and keeps
      the others in their order. */
  lemma BatchDeleteIsKeep<T>(xs: seq<T>, flags: seq<bool>)
    requires |xs| == |flags|
    ensures Ascending(Indices(flags, true), |xs|)
    ensures DeletedFrom(xs, Indices(flags, true), 0) == Keep(xs, flags)
  {
    DeletedFromIsPending(xs, flags, Indices(flags, true), 0);
    PendingEnd(xs, flags);
  }
}

=== FILE: todo_storage.dfy ===
/**
 * The storage side of the to-do list: the records of `todos.csv` as the csv
 * module's reader yields them, the way `csv.DictReader` turns a record into a
 * field lookup, the completion-flag codec, and what loading and saving read
 * and write. Bytes, quoting and escaping are below this level: a file is the
 * sequence of its records.
 */
module TodoStorage {

  datatype Option<T> = None | Some(value: T)

  /** One record of the file: its fields in column order. */
  type Record = seq<string>

  /** One to-do item as `load_data` builds it. `content` is Python's `None`
      when the record is shorter than the header and the reader fills it in. */
  datatype Todo = Todo(completed: bool, content: Option<string>)

  /** The header row written when the file is created and on every save. */
  const Header: Record := ["completed", "content"]

  // ---------------------------------------------------------------------
  // The completion flag codec
  // ---------------------------------------------------------------------

  /** `str.lower` on one character; only ASCII letters change case here. */
  function LowerChar(c: char): (r: char)
    ensures 'A' <= c <= 'Z' ==> r as int == c as int + 32
    ensures !('A' <= c <= 'Z') ==> r == c
  {
    if 'A' <= c <= 'Z' then (c as int + 32) as char else c
  }

  function Lower(s: string): (r: string)
    ensures |r| == |s|
    ensures forall i :: 0 <= i < |s| ==> r[i] == LowerChar(s[i])
  {
    seq(|s|, i requires 0 <= i < |s| => LowerChar(s[i]))
  }

  /** How a `completed` cell is read: its lower-case form equals "true".
      That holds exactly for the four-character cells that spell "true" in
      any mix of cases. */
  predicate ParseFlag(cell: string)
    ensures ParseFlag(cell) <==>
      |cell| == 4 && LowerChar(cell[0]) == 't' && LowerChar(cell[1]) == 'r' &&
      LowerChar(cell[2]) == 'u' && LowerChar(cell[3]) == 'e'
  {
    var l := Lower(cell);
    assert |l| == 4 && l[0] == 't' && l[1] == 'r' && l[2] == 'u' && l[3] == 'e' ==> l == "true";
    l == "true"
  }

  /** `str(b)`: Python spells the booleans with a capital letter, so the
      written form differs from it in the case of that letter only. */
  function BoolStr(b: bool): (r: string)
    ensures |r| > 0 && 'A' <= r[0] <= 'Z'
    ensures Lower(r) == (if b then "true" else "false")
  {
    var s := if b then "True" else "False";
    var want := if b then "true" else "false";
    assert forall i :: 0 <= i < |want| ==> Lower(s)[i] == want[i];
    s
  }

  /** How a flag is written: `str(var.get()).lower()`, which is always one of
      the two lower-case literals. */
  function FlagText(b: bool): (r: string)
    ensures r == (if b then "true" else "false")
  {
    Lower(BoolStr(b))
  }

  /** Reading back a written flag gives the flag: parse after serialise is the identity. */
  lemma FlagRoundTrip(b: bool)
    ensures ParseFlag(FlagText(b)) == b
  {
    LowerOfLowerLiteral(FlagText(b));
  }

  /** Lower-casing the two literals changes nothing. */
  lemma LowerOfLowerLiteral(s: string)
    requires s == "true" || s == "false"
    ensures Lower(s) == s
  {
    assert |Lower(s)| == |s|;
    forall i | 0 <= i < |s|
      ensures Lower(s)[i] == s[i]
    {
    }
  }

  // ---------------------------------------------------------------------
  // csv.DictReader: a record seen through the header
  // ---------------------------------------------------------------------

  /** What `row[key]` gives for a dictionary built by `csv.DictReader`. */
  datatype Cell = KeyMissing | NoneValue | Text(s: string)

  /** The last column below `bound` whose header is `key`: `dict(zip(...))`
      keeps the value of the last duplicate. */
  function LastColumn(header: Record, key: string, bound: nat): (r: Option<nat>)
    requires bound <= |header|
    ensures r.Some? ==> r.value < bound && header[r.value] == key
    ensures r.Some? ==> forall k :: r.value < k < bound ==> header[k] != key
    ensures r.None? ==> forall k :: 0 <= k < bound ==> header[k] != key
  {
    if bound == 0 then None
    else if header[bound - 1] == key then Some(bound - 1)
    else LastColumn(header, key, bound - 1)
  }

  function Min(a: nat, b: nat): nat {
    if a <= b then a else b
  }

  /** The field `key` of data record `row`. Columns pair up with the header
      up to the shorter of the two; when the record is shorter, every header
      name past its end is set to `None`, overriding an earlier duplicate;
      a name the header lacks raises `KeyError`. A text value comes from the
      last column carrying the name. */
  function Field(header: Record, row: Record, key: string): (c: Cell)
    ensures c == KeyMissing <==> key !in header
    ensures c == NoneValue <==> |row| < |header| && key in header[|row|..]
    ensures c.Text? ==> exists k ::
      (0 <= k < |row| && k < |header| && header[k] == key && row[k] == c.s &&
       forall k2 :: k < k2 < |header| ==> header[k2] != key)
  {
    if |row| < |header| && key in header[|row|..] then NoneValue
    else
      match LastColumn(header, key, Min(|row|, |header|))
      case Some(k) =>
        assert forall k2 :: |row| <= k2 < |header| ==> header[k2] == header[|row|..][k2 - |row|];
        Text(row[k])
      case None =>
        assert forall k2 :: |row| <= k2 < |header| ==> header[k2] == header[|row|..][k2 - |row|];
        KeyMissing
  }

  /** The last column carrying a name supplies its field, when the record
      reaches that column: with duplicate names the last one wins. */
  lemma FieldLastDuplicate(header: Record, row: Record, key: string, k: nat)
    requires k < |row| && k < |header| && header[k] == key
    requires forall k2 :: k < k2 < |header| ==> header[k2] != key
    ensures Field(header, row, key) == Text(row[k])
  {
    var c := Field(header, row, key);
    assert key in header;
    if c.Text? {
      var k1 :| 0 <= k1 < |row| && k1 < |header| && header[k1] == key && row[k1] == c.s &&
        forall k2 :: k1 < k2 < |header| ==> header[k2] != key;
      assert k1 == k;
    }
  }

  /** One data record as `load_data` turns it into an item; `None` when the
      expression raises: `KeyError` when the header lacks either name, or
      `.lower()` on the `None` a short record gets for `completed`. The
      content is `None` exactly when the record stops short of it. */
  function ReadTodo(header: Record, row: Record): (r: Option<Todo>)
    ensures r.None? <==> "completed" !in header || "content" !in header ||
                         (|row| < |header| && "completed" in header[|row|..])
    ensures r.Some? ==> (r.value.content.None? <==> |row| < |header| && "content" in header[|row|..])
  {
    match Field(header, row, "completed")
    case Text(flag) =>
      (match Field(header, row, "content")
       case Text(t) => Some(Todo(ParseFlag(flag), Some(t)))
       case NoneValue => Some(Todo(ParseFlag(flag), None))
       case KeyMissing => None)
    case _ => None
  }

  /** `csv.field_size_limit()` at its default: the reader raises `_csv.Error`
      on a field longer than this many characters. */
  const FieldLimit: nat := 131072

  /** The reader raises while reading this record: a field is too long. */
  predicate Oversized(record: Record) {
    exists j :: 0 <= j < |record| && |record[j]| > FieldLimit
  }

  /** Reading data record `row` raises: in the reader, for a field that is
      too long, or in the expression that builds the item. */
  predicate RecordRaises(header: Record, row: Record) {
    Oversized(row) || ReadTodo(header, row).None?
  }

  /** The items loaded and whether loading reached the end without raising. */
  datatype Loaded = Loaded(todos: seq<Todo>, ok: bool)

  /** The items `load_data` appends while iterating over the data records
      `rows`; blank records are skipped by the reader; the first record that
      raises stops the iteration. */
  function ReadRows(header: Record, rows: seq<Record>): (r: Loaded)
    ensures |r.todos| <= |rows|
    decreases |rows|
  {
    if rows == [] then Loaded([], true)
    else if rows[0] == [] then ReadRows(header, rows[1..])
    else if RecordRaises(header, rows[0]) then Loaded([], false)
    else Prepend([ReadTodo(header, rows[0]).value], ReadRows(header, rows[1..]))
  }

  function Prepend(ts: seq<Todo>, l: Loaded): Loaded {
    Loaded(ts + l.todos, l.ok)
  }

  /** One record of the reading loop, for the items `ts` read before it: a
      blank record is passed over, one that raises ends the load with `ts`,
      and any other adds its item after `ts`. */
  lemma PrependStep(ts: seq<Todo>, header: Record, rows: seq<Record>)
    requires rows != []
    ensures rows[0] == [] ==> Prepend(ts, ReadRows(header, rows)) == Prepend(ts, ReadRows(header, rows[1..]))
    ensures rows[0] != [] && RecordRaises(header, rows[0]) ==> Prepend(ts, ReadRows(header, rows)) == Loaded(ts, false)
    ensures rows[0] != [] && !RecordRaises(header, rows[0]) ==>
      Prepend(ts, ReadRows(header, rows)) == Prepend(ts + [ReadTodo(header, rows[0]).value], ReadRows(header, rows[1..]))
  {
    if rows[0] != [] && !RecordRaises(header, rows[0]) {
      var t := ReadTodo(header, rows[0]).value;
      var rest := ReadRows(header, rows[1..]).todos;
      assert ts + ([t] + rest) == (ts + [t]) + rest;
    }
    if rows[0] != [] && RecordRaises(header, rows[0]) {
      assert ts + [] == ts;
    }
  }

  /** Reading a whole file: the first record is the header. An empty file
      has no header and no items; a header with a field that is too long
      raises before any item is read. */
  function ReadFile(records: seq<Record>): (r: Loaded)
    ensures records != [] ==> |r.todos| <= |records| - 1
    ensures records == [] ==> r == Loaded([], true)
    ensures records != [] && Oversized(records[0]) ==> r == Loaded([], false)
  {
    if records == [] then Loaded([], true)
    else if Oversized(records[0]) then Loaded([], false)
    else ReadRows(records[0], records[1..])
  }

  // ---------------------------------------------------------------------
  // Newline translation on reading
  // ---------------------------------------------------------------------

  /** Universal-newline translation of one field. `save_data` opens the file
      with `newline=""`, so a carriage return in a text is written as it is
      (inside a quoted field); `load_data` opens it without that argument,
      so the reader sees every "\r\n" and every lone "\r" as "\n". */
  function Normalize(s: string): (r: string)
    ensures '\r' !in r
    ensures |r| <= |s|
    decreases |s|
  {
    if s == [] then []
    else if s[0] == '\r' then
      if |s| > 1 && s[1] == '\n' then "\n" + Normalize(s[2..]) else "\n" + Normalize(s[1..])
    else [s[0]] + Normalize(s[1..])
  }

  /** A text without a carriage return passes through unchanged. */
  lemma {:induction false} NormalizeNoReturn(s: string)
    requires '\r' !in s
    ensures Normalize(s) == s
    decreases |s|
  {
    if s != [] {
      assert s[0] != '\r';
      assert '\r' !in s[1..];
      NormalizeNoReturn(s[1..]);
    }
  }

  /** A line end read back: "\r\n" and a lone "\r" both become "\n". */
  lemma NormalizeLineEnds()
    ensures Normalize("\r") == "\n"
    ensures Normalize("\r\n") == "\n"
  {
  }

  /** Any character other than a carriage return is kept. */
  lemma NormalizeKeepsOther(c: char)
    requires c != '\r'
    ensures Normalize([c]) == [c]
  {
  }

  /** A carriage return not followed by a line feed becomes a line feed. */
  lemma NormalizeLoneReturn(b: string)
    requires b == [] || b[0] != '\n'
    ensures Normalize("\r" + b) == "\n" + Normalize(b)
  {
    assert ("\r" + b)[1..] == b;
  }

  /** Translation works piece by piece, at any cut that does not fall
      between a carriage return and what follows it. */
  lemma {:induction false} NormalizeConcat(a: string, b: string)
    requires a == [] || a[|a| - 1] != '\r'
    ensures Normalize(a + b) == Normalize(a) + Normalize(b)
    decreases |a|
  {
    if a == [] {
      assert a + b == b;
    } else {
      var n := if a[0] == '\r' && a[1] == '\n' then 2 else 1;
      var t := a[n..];
      assert t == [] || t[|t| - 1] == a[|a| - 1];
      NormalizeConcat(t, b);
      var head := NormalizeHead(a, b, n);
      assert head + (Normalize(t) + Normalize(b)) == (head + Normalize(t)) + Normalize(b);
    }
  }

  /** The first step of translating `a + b` and `a` alike, when `a` does
      not end in a carriage return: `n` characters become `head`. */
  lemma NormalizeHead(a: string, b: string, n: nat) returns (head: string)
    requires a != [] && a[|a| - 1] != '\r'
    requires n == if a[0] == '\r' && a[1] == '\n' then 2 else 1
    ensures n <= |a|
    ensures Normalize(a + b) == head + Normalize(a[n..] + b)
    ensures Normalize(a) == head + Normalize(a[n..])
  {
    var s := a + b;
    assert s[0] == a[0];
    assert s[n..] == a[n..] + b;
    if a[0] == '\r' {
      assert s[1] == a[1];
      head := "\n";
    } else {
      head := [a[0]];
    }
  }

  /** The records the reader yields from the records that were written. */
  function Translated(records: seq<Record>): (v: seq<Record>)
    ensures |v| == |records|
    ensures forall i :: 0 <= i < |records| ==> |v[i]| == |records[i]|
    ensures forall i, j :: 0 <= i < |records| && 0 <= j < |records[i]| ==> v[i][j] == Normalize(records[i][j])
  {
    seq(|records|, i requires 0 <= i < |records| =>
      seq(|records[i]|, j requires 0 <= j < |records[i]| => Normalize(records[i][j])))
  }

  /** Records whose fields hold no carriage return read back unchanged. */
  lemma TranslatedPlain(records: seq<Record>)
    requires forall i, j :: 0 <= i < |records| && 0 <= j < |records[i]| ==> '\r' !in records[i][j]
    ensures Translated(records) == records
  {
    var v := Translated(records);
    forall i | 0 <= i < |records|
      ensures v[i] == records[i]
    {
      forall j | 0 <= j < |records[i]|
        ensures v[i][j] == records[i][j]
      {
        NormalizeNoReturn(records[i][j]);
      }
    }
  }

  /** The texts as a reload gives them back. */
  function NormalizeAll(texts: seq<string>): (r: seq<string>)
    ensures |r| == |texts|
    ensures forall i :: 0 <= i < |texts| ==> r[i] == Normalize(texts[i])
  {
    seq(|texts|, i requires 0 <= i < |texts| => Normalize(texts[i]))
  }

  /** The file `save_data` writes: the header, then one record per row. */
  function SavedRecords(flags: seq<bool>, texts: seq<string>): (records: seq<Record>)
    requires |flags| == |texts|
    ensures |records| == |flags| + 1 && records[0] == Header
    ensures forall i :: 0 <= i < |flags| ==> records[i + 1] == [FlagText(flags[i]), texts[i]]
  {
    [Header] + seq(|flags|, i requires 0 <= i < |flags| => [FlagText(flags[i]), texts[i]])
  }

  /** A file holding the header and then, record by record, the written
      flag and the text of each row is the file `save_data` writes. */
  lemma SavedRecordsExt(records: seq<Record>, flags: seq<bool>, texts: seq<string>)
    requires |flags| == |texts| && |records| == |flags| + 1 && records[0] == Header
    requires forall k :: 0 <= k < |flags| ==> records[k + 1] == [FlagText(flags[k]), texts[k]]
    ensures records == SavedRecords(flags, texts)
  {
    var saved := SavedRecords(flags, texts);
    forall k | 0 <= k < |records|
      ensures records[k] == saved[k]
    {
      if k > 0 {
        assert records[k] == [FlagText(flags[k - 1]), texts[k - 1]];
      }
    }
  }

  /** The items that reading a saved file must give back. */
  function ItemsOf(flags: seq<bool>, texts: seq<string>): (ts: seq<Todo>)
    requires |flags| == |texts|
    ensures |ts| == |flags|
    ensures forall i :: 0 <= i < |flags| ==> ts[i] == Todo(flags[i], Some(texts[i]))
  {
    seq(|flags|, i requires 0 <= i < |flags| => Todo(flags[i], Some(texts[i])))
  }

  // ---------------------------------------------------------------------
  // Properties of loading
  // ---------------------------------------------------------------------

  /** Under the written header, a record with both columns is read as its
      parsed flag and its verbatim text. */
  lemma ReadStandardRecord(row: Record)
    requires |row| >= 2
    ensures ReadTodo(Header, row) == Some(Todo(ParseFlag(row[0]), Some(row[1])))
  {
    assert LastColumn(Header, "completed", 2) == Some(0);
    assert LastColumn(Header, "content", 2) == Some(1);
  }

  /** A file that was just created holds only the header and loads as empty. */
  lemma ReadFreshFile()
    ensures ReadFile(Translated([Header])) == Loaded([], true)
  {
    HeaderUntranslated();
    HeaderFits();
  }

  /** The written header holds no field that is too long. */
  lemma HeaderFits()
    ensures !Oversized(Header)
  {
    assert |Header[0]| <= FieldLimit && |Header[1]| <= FieldLimit;
  }

  /** The header holds no carriage return and reads back as written. */
  lemma HeaderUntranslated()
    ensures Translated([Header]) == [Header]
  {
    var h := [Header];
    assert forall j :: 0 <= j < |h[0]| ==> '\r' !in h[0][j] by {
      assert h[0] == Header;
      assert '\r' !in Header[0] && '\r' !in Header[1];
    }
    TranslatedPlain(h);
  }

  /** Under the written header, records of two fields load without error,
      one item per record, in file order. */
  lemma {:induction false} ReadTwoColumnRows(rows: seq<Record>)
    requires forall i :: 0 <= i < |rows| ==> |rows[i]| == 2
    requires forall i :: 0 <= i < |rows| ==> |rows[i][0]| <= FieldLimit && |rows[i][1]| <= FieldLimit
    ensures ReadRows(Header, rows).ok
    ensures |ReadRows(Header, rows).todos| == |rows|
    ensures forall i :: 0 <= i < |rows| ==>
      ReadRows(Header, rows).todos[i] == Todo(ParseFlag(rows[i][0]), Some(rows[i][1]))
    decreases |rows|
  {
    if rows != [] {
      ReadStandardRecord(rows[0]);
      assert !Oversized(rows[0]);
      ReadTwoColumnRows(rows[1..]);
      var rest := ReadRows(Header, rows[1..]);
      assert ReadRows(Header, rows) == Prepend([Todo(ParseFlag(rows[0][0]), Some(rows[0][1]))], rest);
      forall i | 0 <= i < |rows|
        ensures ReadRows(Header, rows).todos[i] == Todo(ParseFlag(rows[i][0]), Some(rows[i][1]))
      {
        if i > 0 {
          assert rows[1..][i - 1] == rows[i];
        }
      }
    }
  }

  /** Fields are found by name, whatever the order of the columns: under a
      header naming each column once, a record that reaches both named
      columns reads as its parsed flag and its verbatim content. */
  lemma ReadByName(header: Record, row: Record, i: nat, j: nat)
    requires i < |header| && header[i] == "completed"
    requires j < |header| && header[j] == "content"
    requires forall k :: 0 <= k < |header| && k != i ==> header[k] != "completed"
    requires forall k :: 0 <= k < |header| && k != j ==> header[k] != "content"
    requires i < |row| && j < |row|
    ensures ReadTodo(header, row) == Some(Todo(ParseFlag(row[i]), Some(row[j])))
  {
    FieldLastDuplicate(header, row, "completed", i);
    FieldLastDuplicate(header, row, "content", j);
  }

  /** A record that stops after its `completed` column but before its
      `content` column does not raise: its content is `None`. */
  lemma ReadShortRecord(header: Record, row: Record, i: nat, j: nat)
    requires i < |row| <= j < |header|
    requires header[i] == "completed" && header[j] == "content"
    requires forall k :: 0 <= k < |header| && k != i ==> header[k] != "completed"
    ensures ReadTodo(header, row) == Some(Todo(ParseFlag(row[i]), None))
  {
    FieldLastDuplicate(header, row, "completed", i);
    assert header[|row|..][j - |row|] == "content";
  }

  /** The reader skips blank records: removing one changes nothing. */
  lemma {:induction false} ReadRowsSkipsBlank(header: Record, a: seq<Record>, b: seq<Record>)
    ensures ReadRows(header, a + [[]] + b) == ReadRows(header, a + b)
    decreases |a|
  {
    var x, y := a + [[]] + b, a + b;
    if a == [] {
      assert x[0] == [] && x[1..] == y;
    } else {
      assert x[0] == y[0] == a[0];
      assert x[1..] == a[1..] + [[]] + b && y[1..] == a[1..] + b;
      ReadRowsSkipsBlank(header, a[1..], b);
      assert ReadRows(header, x[1..]) == ReadRows(header, y[1..]);
    }
  }

  /** The first record that raises ends the load as a failure, and the items
      read before it are kept. */
  lemma {:induction false} ReadRowsStopsAtError(header: Record, rows: seq<Record>, i: nat)
    requires i < |rows| && rows[i] != [] && RecordRaises(header, rows[i])
    requires ReadRows(header, rows[..i]).ok
    ensures ReadRows(header, rows) == Loaded(ReadRows(header, rows[..i]).todos, false)
    decreases i
  {
    if i > 0 {
      assert rows[..i][1..] == rows[1..][..i - 1];
      assert rows[..i][0] == rows[0];
      ReadRowsStopsAtError(header, rows[1..], i - 1);
    }
  }

  /** A record that raises anywhere in the file makes the load fail. */
  lemma {:induction false} ReadRowsFailsAt(header: Record, rows: seq<Record>, i: nat)
    requires i < |rows| && rows[i] != [] && RecordRaises(header, rows[i])
    ensures !ReadRows(header, rows).ok
    decreases i
  {
    if i > 0 && !(rows[0] != [] && RecordRaises(header, rows[0])) {
      assert rows[1..][i - 1] == rows[i];
      ReadRowsFailsAt(header, rows[1..], i - 1);
    }
  }

  /** The written header and flags hold no carriage return, so only the
      texts change on the way back: the reader sees the records `save_data`
      would write for the translated texts. */
  lemma TranslateSaved(flags: seq<bool>, texts: seq<string>)
    requires |flags| == |texts|
    ensures Translated(SavedRecords(flags, texts)) == SavedRecords(flags, NormalizeAll(texts))
  {
    var w := SavedRecords(flags, texts);
    var a := Translated(w);
    var b := SavedRecords(flags, NormalizeAll(texts));
    HeaderUntranslated();
    assert a[0] == Translated([Header])[0];
    forall k | 1 <= k < |a|
      ensures a[k] == b[k]
    {
      var f := FlagText(flags[k - 1]);
      assert w[k] == [f, texts[k - 1]];
      NormalizeNoReturn(f);
      assert a[k][0] == f && a[k][1] == Normalize(texts[k - 1]);
    }
  }

  /** Save then load: reading the file `save_data` wrote succeeds exactly
      when every text, after newline translation, fits the reader's field
      limit; it then gives back one item per saved row, with the same flag
      and the same text up to newline translation, in the same order. */
  lemma SaveLoadRoundTrip(flags: seq<bool>, texts: seq<string>)
    requires |flags| == |texts|
    ensures ReadFile(Translated(SavedRecords(flags, texts))).ok <==> FitFields(NormalizeAll(texts))
    ensures FitFields(NormalizeAll(texts)) ==>
      ReadFile(Translated(SavedRecords(flags, texts))) == Loaded(ItemsOf(flags, NormalizeAll(texts)), true)
  {
    TranslateSaved(flags, texts);
    SaveLoadUntranslated(flags, NormalizeAll(texts));
  }

  /** A text without a carriage return that fits the field limit comes back
      exactly. */
  lemma SaveLoadExact(flags: seq<bool>, texts: seq<string>)
    requires |flags| == |texts|
    ensures (forall i :: 0 <= i < |texts| ==> '\r' !in texts[i]) && FitFields(texts) ==>
      ReadFile(Translated(SavedRecords(flags, texts))) == Loaded(ItemsOf(flags, texts), true)
  {
    if forall i :: 0 <= i < |texts| ==> '\r' !in texts[i] {
      forall i | 0 <= i < |texts|
        ensures Normalize(texts[i]) == texts[i]
      {
        NormalizeNoReturn(texts[i]);
      }
      assert NormalizeAll(texts) == texts;
      SaveLoadRoundTrip(flags, texts);
    }
  }

  /** Every text fits the reader's field limit. */
  predicate FitFields(texts: seq<string>) {
    forall i :: 0 <= i < |texts| ==> |texts[i]| <= FieldLimit
  }

  /** Parsing the records `save_data` writes succeeds exactly when every
      text fits the field limit, and then gives back every row. */
  lemma SaveLoadUntranslated(flags: seq<bool>, texts: seq<string>)
    requires |flags| == |texts|
    ensures ReadFile(SavedRecords(flags, texts)).ok <==> FitFields(texts)
    ensures FitFields(texts) ==> ReadFile(SavedRecords(flags, texts)) == Loaded(ItemsOf(flags, texts), true)
  {
    var records := SavedRecords(flags, texts);
    HeaderFits();
    if FitFields(texts) {
      SaveLoadFits(flags, texts);
    } else {
      var i :| 0 <= i < |texts| && |texts[i]| > FieldLimit;
      var rows := records[1..];
      assert rows[i] == records[i + 1];
      assert |rows[i]| == 2 && rows[i][1] == texts[i];
      assert 1 < |rows[i]| && |rows[i][1]| > FieldLimit;
      ReadRowsFailsAt(Header, rows, i);
    }
  }

  /** The records `save_data` writes, every text fitting the field limit,
      read back as every row. */
  lemma SaveLoadFits(flags: seq<bool>, texts: seq<string>)
    requires |flags| == |texts| && FitFields(texts)
    ensures ReadFile(SavedRecords(flags, texts)) == Loaded(ItemsOf(flags, texts), true)
  {
    var rows := SavedRows(flags, texts);
    var got := ReadRows(Header, rows);
    assert got.ok && |got.todos| == |rows| &&
      forall i :: 0 <= i < |rows| ==> got.todos[i] == Todo(ParseFlag(rows[i][0]), Some(rows[i][1])) by {
      ReadTwoColumnRows(rows);
    }
    forall i | 0 <= i < |flags|
      ensures got.todos[i] == ItemsOf(flags, texts)[i]
    {
      FlagRoundTrip(flags[i]);
    }
  }

  /** The data records of a saved file, every text fitting the field limit:
      two fields each, both within the limit, read under the header. */
  lemma SavedRows(flags: seq<bool>, texts: seq<string>) returns (rows: seq<Record>)
    requires |flags| == |texts| && FitFields(texts)
    ensures rows == SavedRecords(flags, texts)[1..]
    ensures ReadFile(SavedRecords(flags, texts)) == ReadRows(Header, rows)
    ensures |rows| == |flags|
    ensures forall i :: 0 <= i < |rows| ==> rows[i] == [FlagText(flags[i]), texts[i]]
    ensures forall i :: 0 <= i < |rows| ==> |rows[i]| == 2
    ensures forall i :: 0 <= i < |rows| ==> |rows[i][0]| <= FieldLimit && |rows[i][1]| <= FieldLimit
  {
    var records := SavedRecords(flags, texts);
    rows := records[1..];
    HeaderFits();
    assert forall i :: 0 <= i < |rows| ==> rows[i] == records[i + 1];
  }
}
